=== FILE: README.md ===
# Expense ledger analysis — a Dafny model

`analisis_gastos.py` reads a personal-expense ledger (columns `Fecha`, `Costo`,
`Categoría`, `Gastos`, `Metodo de pago`), cleans it, groups and sums the costs, and
prints a short summary: the grand total, the share of each category, the day with the
largest total and the largest single expense. This project models the cleaning stage
(lines 20-48) and the summary reductions (lines 59-60, 77, 101, 106-125), and proves
what they compute.

Modules, in the order of the pipeline:

- `Wrappers` — `Option` and `Result`.
- `Text` — the character and string helpers the parsers need: Python's `str.isspace`
  set, `strip`, digit strings and their values, fixed-width zero-padded numbers.
- `Ledger` — the data: a raw row of optional text cells (`None` is a NaN cell), the
  `Date` triple with its lexicographic order and its validity predicate (a real calendar
  date inside the range of a pandas `Timestamp`, 1677-09-22 to 2262-04-11), and the
  cleaned `Expense` row.
- `Parsing` — `to_datetime(format='%d/%m/%Y', errors='coerce')`, the `Costo` text
  pipeline (`astype(str)`, remove `$`, remove `.`, `,` to `.`, `strip`) and
  `to_numeric(errors='coerce')` over exact decimals.
- `Cleaning` — the whole cleaning stage, as a specification function `Cleaned` and as
  the step-by-step method `Clean`. The method builds the date column in an array and
  forward-fills it in place (`FillForward`). It then drops the rows without a cost in a
  loop (`DropRowsWithoutCost`).
- `Grouping` — `groupby(...)['Costo'].sum()` by category and by date, and the
  descending `sort_values` of the category totals.
- `Report` — the grand total, the percentage breakdown, the two `idxmax` lookups with
  the `'Desconocido'` placeholder, and `Summarise`. `Summarise` returns a `Result`
  instead of raising when no row has a date.

Costs are exact `real` numbers, not floats.

Two consequences of the order and the grouping of the code are worth stating:

- The forward fill of the dates (line 25) runs before the rows without a cost are
  dropped (line 48). So a row whose date does not parse takes the date of the previous
  row that survived line 20, even when line 48 drops that row later.
  `Cleaning.FillFromDroppedRow` states this.
- Both `groupby` calls (lines 59 and 77) leave out rows whose key (category or date) is
  null, while the grand total of line 101 does not. So the category totals add up to the
  grand total when no row has a null category (`Report.CategoryTotalsAddUp`), and the
  daily totals do when no row has a null date (`Report.DailyTotalsAddUp`).

## Model

| member | source | states |
|---|---|---|
| `Text.Trim` | analisis_gastos.py:37 | `strip`: neither end of the result is whitespace |
| `Text.TrimSpec` | analisis_gastos.py:37 | `strip` removes only whitespace: the input is the result with whitespace before and after it |
| `Parsing.TrimKeepsCount` | analisis_gastos.py:37 | `strip` keeps every copy of every character that is not whitespace |
| `Parsing.ParseDate` | analisis_gastos.py:24 | a date that parses is a valid calendar date inside the Timestamp range; a NaN cell gives NaT |
| `Parsing.DateRoundTrip` | analisis_gastos.py:24 | for every valid date, its `dd/mm/yyyy` text (the `strftime` format of line 116) parses back to the same date |
| `Parsing.NormaliseCostSpec` | analisis_gastos.py:31-38 | the normalised cost has no `$`, no `,` and no `.` from the input; it has exactly as many `.` as the input had `,`; every other non-space character keeps its count; it is trimmed |
| `Parsing.NormalisePlain` | analisis_gastos.py:34-37 | text without `$`, `.` or `,` and without whitespace at its ends comes out of the normalisation unchanged |
| `Parsing.NotNumberStart` | analisis_gastos.py:39 | text that starts with anything but a digit, a sign or a point is not a number |
| `Parsing.MissingCostIsNull` | analisis_gastos.py:33-39 | a NaN cost cell becomes the text `"nan"`, which is not a number, so the cost is null |
| `Parsing.ParseCostRoundTrip` | analisis_gastos.py:31-39 | for every amount in cents, its peso text `$d.ddd,cc` (dot-grouped thousands, comma decimals) parses to the amount |
| `Parsing.PesoExample` | analisis_gastos.py:31-39 | `"$1.234,56"` parses to 1234.56 |
| `Parsing.DecimalPointQuirk` | analisis_gastos.py:35-39 | a cost written with a decimal point, `whole.frac`, loses the point and parses as the integer with the digits of `whole` followed by those of `frac` (`"12.50"` is 1250) |
| `Cleaning.BlankedRowSpec` | analisis_gastos.py:20 | replacing `""` cells by NaN leaves no `""` cell and does not change whether a row is all blank |
| `Cleaning.NonEmptyRowsClean` | analisis_gastos.py:20 | every kept row has a non-null cell and no `""` cell |
| `Cleaning.NonEmptyRowsMembership` | analisis_gastos.py:20 | a row is kept exactly when it is the blanked form of an input row whose cells are not all null or `""` |
| `Cleaning.NonEmptyRowsAppend` | analisis_gastos.py:20 | the empty-row filter distributes over concatenation, so the kept rows keep their order |
| `Cleaning.FilledForwardSpec` | analisis_gastos.py:24-25 | a date that parsed is kept; a NaT takes the filled date of the row before it; a date stays NaT exactly while no row up to it has a parsed date |
| `Cleaning.FillForward` | analisis_gastos.py:25 | the in-place fill of the date array leaves it equal to the forward fill of its old contents |
| `Cleaning.FillSource` | analisis_gastos.py:25 | a filled date is the most recent parsed date at or before its row |
| `Cleaning.DropNullCostsMembership` | analisis_gastos.py:48 | a cleaned row is exactly a parsed row whose cost is a number |
| `Cleaning.DropNullCostsAppend` | analisis_gastos.py:48 | dropping the rows without a cost distributes over concatenation, so the survivors keep their order |
| `Cleaning.DropRowsWithoutCost` | analisis_gastos.py:48 | the row-by-row `dropna` loop yields exactly the rows whose cost is a number, in order |
| `Cleaning.Clean` | analisis_gastos.py:20-48 | the step-by-step cleaning (blank and drop empty rows, parse and forward-fill dates in place, parse costs, rename, drop rows without a cost) yields `Cleaned(raw)` |
| `Cleaning.CleanedRowOrigin` | analisis_gastos.py:20-48 | every cleaned row comes from a kept input row whose cost text parses to its cost, carries that row's category, description, payment method and further columns, and the filled date of that row's position |
| `Cleaning.KeptRowCleaned` | analisis_gastos.py:24-48 | a kept row whose cost parses has a cleaned row, carrying its cost, its filled date and all its other cells, further columns included |
| `Cleaning.CleanedDatesValid` | analisis_gastos.py:24-25 | every date in the cleaned rows is a valid calendar date inside the Timestamp range |
| `Cleaning.FillFromDroppedRow` | analisis_gastos.py:25-48 | when a row's date does not parse but its cost does, its cleaned row carries the previous row's date, whether or not that previous row survives line 48 |
| `Grouping.CategoryGroupsSpec` | analisis_gastos.py:59 | the category grouping has distinct keys, one per non-null category, each looked up to the sum of the costs in that category, and its totals sum to the costs of the categorised rows |
| `Grouping.SortByTotalSpec` | analisis_gastos.py:60 | the descending sort yields a permutation with the same keys and the same sum, with non-increasing totals, and keeps keys distinct |
| `Grouping.CategoryAggregateSpec` | analisis_gastos.py:59-60 | the category aggregate has exactly one entry per non-null category; each entry's total is the sum of that category's costs; the totals never increase; they add up to the costs of the categorised rows |
| `Grouping.DailyTotalsSpec` | analisis_gastos.py:77 | the daily aggregate has exactly one entry per non-null date, in strictly increasing date order; each entry's total is that day's sum; the totals add up to the costs of the dated rows |
| `Report.CategoryTotalsAddUp` | analisis_gastos.py:101 | when no row has a null category, the category totals add up to the grand total |
| `Report.DailyTotalsAddUp` | analisis_gastos.py:101 | when no row has a null date, the daily totals add up to the grand total |
| `Report.BreakdownSpec` | analisis_gastos.py:106-108 | the breakdown follows the category aggregate; each line has the category's total and the percentage total / grand total × 100 (absent when the grand total is 0); totals never increase |
| `Report.PercentagesAddUp` | analisis_gastos.py:106-108 | when no row has a null category and the grand total is not 0, the percentages add up to 100 |
| `Report.BreakdownExample` | analisis_gastos.py:101-108 | costs 100 and 50 in Comida and 25 in Transporte give the aggregate Comida 150, Transporte 25, the total 175 and the shares 600/7 % and 100/7 % |
| `Report.ArgMax` | analisis_gastos.py:114 | `idxmax`: the position holds a value no other position exceeds, and every earlier position holds a strictly smaller value |
| `Report.BusiestDaySpec` | analisis_gastos.py:113-115 | the reported day occurs in the rows; the reported amount is its total; no day's total is larger; every earlier day's total is strictly smaller |
| `Report.LargestExpenseSpec` | analisis_gastos.py:120 | the largest expense costs at least as much as every row, and strictly more than every earlier row |
| `Report.LargestExpenseExample` | analisis_gastos.py:120-125 | with costs 10, 999 and 5 and no description on the 999 row, that row is reported, as `'Desconocido'` |
| `Report.SummariseSpec` | analisis_gastos.py:101-125 | the summary fails exactly when no row has a date; otherwise it holds the grand total and the breakdown; its busiest day occurs, its amount is that day's total, no day's total exceeds it and every earlier day's total is smaller; its largest cost is no smaller than any row's cost, and it comes with the description (or `'Desconocido'`) of the first row that has it |
| `Report.Analyse` | analisis_gastos.py:20-125 | the script's data flow: cleaning followed by the summary yields `Summarise(Cleaned(raw))` |

## Left out

- Reading the CSV file and stripping the column names (lines 11-12). The input is a
  sequence of rows whose cells are already split. A NaN cell is `None`.
- The numeric type inference of `read_csv`. Every cell is modelled as text. A `Costo`
  column that pandas reads as numbers would be stringified first (`12.5` becomes
  `"12.5"`) and then lose its point, as `Parsing.DecimalPointQuirk` describes.
- The console output: the `head()`/`info()` dumps (lines 14-17, 50-53), the headings,
  the `:.2f` formatting and the summary `print` calls (lines 96-129). The date format of
  line 116 is modelled only by `Parsing.FormatDate` and its round trip.
- The two matplotlib charts and their image files (lines 62-73, 79-88).
- The `try`/`except` around the cleaning stage (lines 9, 90-93), and the branches for a
  missing `Fecha` or `Costo` column (lines 23, 26-27, 30). The model assumes both columns
  exist. The summary is applied to the cleaned rows directly, so the crash on an
  undefined frame after a caught error is not modelled.
- Missing `Categoría`, `Gastos` or `Metodo de pago` columns. A row always has all five
  cells, so the model assumes these columns exist. In the code, a ledger without
  `Categoría` raises a `KeyError` at line 59, which the `except` catches, and then again at
  line 106, outside the `try`. A ledger without `Gastos` gets through the rename of lines
  42-45, which ignores missing labels, and raises at line 123. A column whose cells are
  all null is the nearest input the model has. It gives an empty breakdown or
  `'Desconocido'` instead of the crash.
- Floating point. Costs, sums and percentages are exact reals. No rounding is modelled.
- `Parsing.ParseDate`: only the `dd/mm/yyyy` grammar of `format='%d/%m/%Y'` is modelled,
  with ASCII digits. `%d` also accepts a space followed by one digit (`" 5/03/2024"` is
  5 March 2024), and the `\d` of `%d` and `%Y` also matches non-ASCII digits; the model
  rejects both.
  Day and month have one or two digits, the year has four, and there is no surrounding
  text. Other inputs pandas' date parser might accept or reject differently are outside
  the model.
- `Parsing.ParseCost`: `to_numeric` is modelled as an optional sign followed by digits
  with at most one decimal point, with at least one digit. Exponents, `inf`, `nan`
  spellings other than NaN cells, and underscores are not modelled.
- `Report.Percent`: a zero grand total gives an absent percentage. Floating-point
  division would give `inf` or `nan`.
- `Report.Summarise`: returns `Err(NoDailyTotals)` where `idxmax` on an empty daily
  series raises.
- `Grouping.CategoryAggregate`: among categories with equal totals, the model keeps the
  order of first appearance. pandas sorts the group keys by name and then applies a sort
  that is not stable, so the order of ties is not modelled. The contracts state nothing
  about ties.
- The column rename (lines 42-45) is only a naming step. The cleaned row stores
  `Gastos` as `descripcion` and `Metodo de pago` as `metodoPago`. Other columns are
  carried along unchanged in `others`.
- Chained assignment with `inplace=True` on a column selection (line 25): the intended
  forward fill is modelled, whatever a given pandas version does with the copy.

=== FILE: cleaning.dfy ===
/**
 * The cleaning stage: empty rows dropped, dates parsed and forward-filled, costs
 * normalised and parsed, the two columns renamed, and rows without a cost dropped.
 * `Cleaned` states the whole stage as a function; `Clean` performs it step by step.
 */
module Cleaning {
  import opened Wrappers
  import opened Ledger
  import opened Parsing

  // ---------------------------------------------------------------------------
  // replace('', NaN) and dropna(how='all')
  // ---------------------------------------------------------------------------

  /** A cell that counts as empty: NaN already, or exactly the empty text. */
  predicate IsBlank(c: Cell)
  {
    c.None? || c.value == ""
  }

  function Blanked(c: Cell): Cell
  {
    if IsBlank(c) then None else c
  }

  /** The row with every "" cell replaced by NaN. */
  function BlankedRow(r: RawRow): RawRow
  {
    RawRow(Blanked(r.fecha), Blanked(r.costo), Blanked(r.categoria), Blanked(r.gastos),
           Blanked(r.metodoPago), seq(|r.others|, i requires 0 <= i < |r.others| => Blanked(r.others[i])))
  }

  predicate AllBlank(r: RawRow)
  {
    && IsBlank(r.fecha) && IsBlank(r.costo) && IsBlank(r.categoria)
    && IsBlank(r.gastos) && IsBlank(r.metodoPago)
    && forall i :: 0 <= i < |r.others| ==> IsBlank(r.others[i])
  }

  /** No cell of the row holds the empty text. */
  predicate NoEmptyText(r: RawRow)
  {
    && r.fecha != Some("") && r.costo != Some("") && r.categoria != Some("")
    && r.gastos != Some("") && r.metodoPago != Some("")
    && forall i :: 0 <= i < |r.others| ==> r.others[i] != Some("")
  }

  lemma {:induction false} BlankedRowSpec(r: RawRow)
    ensures AllBlank(BlankedRow(r)) <==> AllBlank(r)
    ensures NoEmptyText(BlankedRow(r))
  {
    var b := BlankedRow(r);
    assert forall i :: 0 <= i < |r.others| ==> (IsBlank(b.others[i]) <==> IsBlank(r.others[i]));
  }

  /** Line 20: blank cells become NaN and the rows left with nothing but NaN go. */
  function NonEmptyRows(raw: seq<RawRow>): (kept: seq<RawRow>)
    ensures |kept| <= |raw|
  {
    if raw == [] then []
    else (if AllBlank(raw[0]) then [] else [BlankedRow(raw[0])]) + NonEmptyRows(raw[1..])
  }

  /** The rows line 20 keeps are not blank and hold no "" cell. */
  lemma {:induction false} NonEmptyRowsClean(raw: seq<RawRow>)
    ensures forall k :: 0 <= k < |NonEmptyRows(raw)| ==>
              !AllBlank(NonEmptyRows(raw)[k]) && NoEmptyText(NonEmptyRows(raw)[k])
  {
    if raw != [] {
      BlankedRowSpec(raw[0]);
      NonEmptyRowsClean(raw[1..]);
    }
  }

  /** The filter keeps the order of the rows: it works on each part of the ledger alone. */
  lemma {:induction false} NonEmptyRowsAppend(a: seq<RawRow>, b: seq<RawRow>)
    ensures NonEmptyRows(a + b) == NonEmptyRows(a) + NonEmptyRows(b)
  {
    if a == [] {
      assert a + b == b;
    } else {
      assert (a + b)[1..] == a[1..] + b;
      NonEmptyRowsAppend(a[1..], b);
    }
  }

  /** A row is kept exactly when it is not blank, and then with its "" cells made NaN. */
  lemma {:induction false} NonEmptyRowsMembership(raw: seq<RawRow>, x: RawRow)
    ensures x in NonEmptyRows(raw) <==> exists r :: r in raw && !AllBlank(r) && x == BlankedRow(r)
  {
    if raw != [] {
      NonEmptyRowsMembership(raw[1..], x);
      assert forall r :: r in raw <==> r == raw[0] || r in raw[1..];
    }
  }

  // ---------------------------------------------------------------------------
  // to_datetime and fillna(method='ffill')
  // ---------------------------------------------------------------------------

  /** Line 24: the date column parsed as day/month/year, NaT where that fails. */
  function ParsedDates(kept: seq<RawRow>): (ds: seq<Option<Date>>)
    ensures |ds| == |kept|
  {
    seq(|kept|, i requires 0 <= i < |kept| => ParseDate(kept[i].fecha))
  }

  /** Forward fill carrying `last`, the value of the row before `ds`. */
  function FillFrom(last: Option<Date>, ds: seq<Option<Date>>): (r: seq<Option<Date>>)
    ensures |r| == |ds|
    decreases |ds|
  {
    if ds == [] then []
    else
      var v := if ds[0].Some? then ds[0] else last;
      [v] + FillFrom(v, ds[1..])
  }

  /** Line 25: every NaT takes the value of the row before it. */
  function FilledForward(ds: seq<Option<Date>>): (r: seq<Option<Date>>)
    ensures |r| == |ds|
  {
    FillFrom(None, ds)
  }

  lemma {:induction false} FillFromSpec(last: Option<Date>, ds: seq<Option<Date>>, i: nat)
    requires i < |ds|
    ensures ds[i].Some? ==> FillFrom(last, ds)[i] == ds[i]
    ensures ds[i].None? && i == 0 ==> FillFrom(last, ds)[i] == last
    ensures ds[i].None? && i > 0 ==> FillFrom(last, ds)[i] == FillFrom(last, ds)[i - 1]
    ensures FillFrom(last, ds)[i].None? <==> last.None? && forall j :: 0 <= j <= i ==> ds[j].None?
    decreases i
  {
    if i > 0 {
      var v := if ds[0].Some? then ds[0] else last;
      FillFromSpec(v, ds[1..], i - 1);
      assert FillFrom(last, ds)[i] == FillFrom(v, ds[1..])[i - 1];
      if i > 1 {
        assert FillFrom(last, ds)[i - 1] == FillFrom(v, ds[1..])[i - 2];
      }
      assert (forall j :: 0 <= j <= i ==> ds[j].None?)
             <==> ds[0].None? && forall j :: 0 <= j <= i - 1 ==> ds[1..][j].None?;
    }
  }

  /**
   * The filled date column: a date that parsed is kept; a NaT takes the filled date of
   * the row before it; and a date stays NaT exactly while no row up to it has parsed.
   */
  lemma {:induction false} FilledForwardSpec(ds: seq<Option<Date>>, i: nat)
    requires i < |ds|
    ensures ds[i].Some? ==> FilledForward(ds)[i] == ds[i]
    ensures ds[i].None? && i > 0 ==> FilledForward(ds)[i] == FilledForward(ds)[i - 1]
    ensures FilledForward(ds)[i].None? <==> forall j :: 0 <= j <= i ==> ds[j].None?
  {
    FillFromSpec(None, ds, i);
  }

  /** Line 25, in place on the date column: `fillna(method='ffill', inplace=True)`. */
  method FillForward(a: array<Option<Date>>)
    modifies a
    ensures a[..] == FilledForward(old(a[..]))
  {
    ghost var orig := a[..];
    ghost var filled := FilledForward(orig);
    var last: Option<Date> := None;
    for i := 0 to a.Length
      invariant forall k :: i <= k < a.Length ==> a[k] == orig[k]
      invariant forall k :: 0 <= k < i ==> a[k] == filled[k]
      invariant last == if i == 0 then None else filled[i - 1]
    {
      FilledForwardSpec(orig, i);
      if a[i].None? {
        a[i] := last;
      }
      last := a[i];
    }
    assert a[..] == filled;
  }

  // ---------------------------------------------------------------------------
  // Cost parsing, renaming and dropna(subset=['Costo'])
  // ---------------------------------------------------------------------------

  /**
   * A row after lines 24-45: filled date, parsed cost (NaN where parsing failed), and
   * the renamed `Descripcion_Gasto` / `Metodo_Pago` columns.
   */
  datatype ParsedRow = ParsedRow(
    fecha: Option<Date>,
    costo: Option<real>,
    categoria: Cell,
    descripcion: Cell,
    metodoPago: Cell,
    others: seq<Cell>)

  /** Lines 24-45 on the rows line 20 kept. */
  function ParsedRows(kept: seq<RawRow>): (p: seq<ParsedRow>)
    ensures |p| == |kept|
  {
    var fechas := FilledForward(ParsedDates(kept));
    seq(|kept|, i requires 0 <= i < |kept| =>
      ParsedRow(fechas[i], ParseCost(kept[i].costo), kept[i].categoria, kept[i].gastos,
                kept[i].metodoPago, kept[i].others))
  }

  function ToExpense(p: ParsedRow): Expense
    requires p.costo.Some?
  {
    Expense(p.fecha, p.costo.value, p.categoria, p.descripcion, p.metodoPago, p.others)
  }

  /** Line 48: the rows whose cost is NaN go; the others keep their values and order. */
  function DropNullCosts(p: seq<ParsedRow>): (rows: seq<Expense>)
    ensures |rows| <= |p|
  {
    if p == [] then []
    else if p[0].costo.Some? then [ToExpense(p[0])] + DropNullCosts(p[1..])
    else DropNullCosts(p[1..])
  }

  lemma {:induction false} DropNullCostsAppend(a: seq<ParsedRow>, b: seq<ParsedRow>)
    ensures DropNullCosts(a + b) == DropNullCosts(a) + DropNullCosts(b)
  {
    if a == [] {
      assert a + b == b;
    } else {
      var ab := a + b;
      assert ab[0] == a[0] && ab[1..] == a[1..] + b;
      DropNullCostsAppend(a[1..], b);
    }
  }

  /** A cleaned row is exactly a parsed row whose cost is a number. */
  lemma {:induction false} DropNullCostsMembership(p: seq<ParsedRow>, e: Expense)
    ensures e in DropNullCosts(p) <==> exists x :: x in p && x.costo.Some? && e == ToExpense(x)
  {
    if p != [] {
      DropNullCostsMembership(p[1..], e);
      assert forall x :: x in p <==> x == p[0] || x in p[1..];
    }
  }

  /** The whole cleaning stage, lines 20-48. */
  function Cleaned(raw: seq<RawRow>): seq<Expense>
  {
    DropNullCosts(ParsedRows(NonEmptyRows(raw)))
  }

  /** Line 48, `dropna(subset=['Costo'], inplace=True)`, row by row. */
  method DropRowsWithoutCost(frame: seq<ParsedRow>) returns (rows: seq<Expense>)
    ensures rows == DropNullCosts(frame)
  {
    rows := [];
    for i := 0 to |frame|
      invariant rows == DropNullCosts(frame[..i])
    {
      DropNullCostsAppend(frame[..i], [frame[i]]);
      assert frame[..i + 1] == frame[..i] + [frame[i]];
      if frame[i].costo.Some? {
        rows := rows + [ToExpense(frame[i])];
      }
    }
    assert frame[..|frame|] == frame;
  }

  /** Lines 20-48 as the script runs them, one column operation after another. */
  method Clean(raw: seq<RawRow>) returns (rows: seq<Expense>)
    ensures rows == Cleaned(raw)
  {
    var kept := NonEmptyRows(raw);
    var fechas := new Option<Date>[|kept|](i requires 0 <= i < |kept| => ParseDate(kept[i].fecha));
    assert fechas[..] == ParsedDates(kept);
    FillForward(fechas);
    var filled := fechas[..];
    var frame := seq(|kept|, i requires 0 <= i < |kept| =>
      ParsedRow(filled[i], ParseCost(kept[i].costo), kept[i].categoria, kept[i].gastos,
                kept[i].metodoPago, kept[i].others));
    assert frame == ParsedRows(kept);
    rows := DropRowsWithoutCost(frame);
  }

  /** `e` is the cleaned form of row `i` of the rows line 20 kept. */
  predicate CleanedFrom(kept: seq<RawRow>, i: nat, e: Expense)
  {
    && i < |kept|
    && ParseCost(kept[i].costo) == Some(e.costo)
    && e.fecha == FilledForward(ParsedDates(kept))[i]
    && e.categoria == kept[i].categoria
    && e.descripcion == kept[i].gastos
    && e.metodoPago == kept[i].metodoPago
    && e.others == kept[i].others
  }

  /**
   * Every cleaned row comes from a non-empty input row whose cost text parses, carries
   * that cost, and carries the forward-filled date of its position.
   */
  lemma {:induction false} CleanedRowOrigin(raw: seq<RawRow>, e: Expense)
    requires e in Cleaned(raw)
    ensures exists i :: CleanedFrom(NonEmptyRows(raw), i, e)
  {
    var kept := NonEmptyRows(raw);
    var p := ParsedRows(kept);
    DropNullCostsMembership(p, e);
    var x :| x in p && x.costo.Some? && e == ToExpense(x);
    var i :| 0 <= i < |p| && p[i] == x;
    assert x.costo == ParseCost(kept[i].costo);
    assert x.fecha == FilledForward(ParsedDates(kept))[i];
    assert CleanedFrom(kept, i, e);
  }

  /** A filled date is the most recent date that parsed at or before its row. */
  lemma {:induction false} FillSource(ds: seq<Option<Date>>, i: nat)
    requires i < |ds| && FilledForward(ds)[i].Some?
    ensures exists j :: 0 <= j <= i && FilledForward(ds)[i] == ds[j] && forall k :: j < k <= i ==> ds[k].None?
  {
    FilledForwardSpec(ds, i);
    if ds[i].Some? {
      assert FilledForward(ds)[i] == ds[i];
    } else {
      FillSource(ds, i - 1);
      var j :| 0 <= j <= i - 1 && FilledForward(ds)[i - 1] == ds[j] && forall k :: j < k <= i - 1 ==> ds[k].None?;
      assert forall k :: j < k <= i ==> ds[k].None?;
    }
  }

  /** Every date in the cleaned rows is a valid calendar date inside the Timestamp range. */
  lemma {:induction false} CleanedDatesValid(raw: seq<RawRow>, e: Expense)
    requires e in Cleaned(raw) && e.fecha.Some?
    ensures ValidDate(e.fecha.value)
  {
    CleanedRowOrigin(raw, e);
    var kept := NonEmptyRows(raw);
    var i :| CleanedFrom(kept, i, e);
    var ds := ParsedDates(kept);
    FillSource(ds, i);
  }

  /** A kept row whose cost parses has its cleaned form among the cleaned rows. */
  lemma {:induction false} KeptRowCleaned(kept: seq<RawRow>, i: nat)
    requires i < |kept| && ParseCost(kept[i].costo).Some?
    ensures ToExpense(ParsedRows(kept)[i]) in DropNullCosts(ParsedRows(kept))
    ensures CleanedFrom(kept, i, ToExpense(ParsedRows(kept)[i]))
  {
    var p := ParsedRows(kept);
    var x := p[i];
    assert x.costo == ParseCost(kept[i].costo);
    DropNullCostsMembership(p, ToExpense(x));
    assert x in p;
  }

  /**
   * Line 25 runs before line 48: a row whose date does not parse takes the date of the
   * row before it, whatever that row's cost, so also when that row is later dropped.
   */
  lemma {:induction false} FillFromDroppedRow(raw: seq<RawRow>, i: nat)
    requires i + 1 < |NonEmptyRows(raw)|
    requires ParseDate(NonEmptyRows(raw)[i].fecha).Some?
    requires ParseDate(NonEmptyRows(raw)[i + 1].fecha).None?
    requires ParseCost(NonEmptyRows(raw)[i + 1].costo).Some?
    ensures exists e :: e in Cleaned(raw) && CleanedFrom(NonEmptyRows(raw), i + 1, e)
                        && e.fecha == ParseDate(NonEmptyRows(raw)[i].fecha)
  {
    var kept := NonEmptyRows(raw);
    var ds := ParsedDates(kept);
    assert ds[i] == ParseDate(kept[i].fecha) && ds[i + 1].None?;
    FilledForwardSpec(ds, i);
    FilledForwardSpec(ds, i + 1);
    KeptRowCleaned(kept, i + 1);
    var e := ToExpense(ParsedRows(kept)[i + 1]);
    assert e in Cleaned(raw) && e.fecha == ds[i];
  }
}

=== FILE: grouping.dfy ===
/**
 * `groupby(...)['Costo'].sum()` by category and by date, and the descending sort of
 * the category totals. An aggregate is a sequence of (key, total) pairs.
 */
module Grouping {
  import opened Wrappers
  import opened Ledger

  // ---------------------------------------------------------------------------
  // Aggregates in general
  // ---------------------------------------------------------------------------

  function KeySet<K(==)>(g: seq<(K, real)>): set<K>
  {
    if g == [] then {} else {g[0].0} + KeySet(g[1..])
  }

  /** No key occurs twice. */
  predicate DistinctKeys<K(==)>(g: seq<(K, real)>)
  {
    g == [] || (g[0].0 !in KeySet(g[1..]) && DistinctKeys(g[1..]))
  }

  /** The total recorded for `k`, or 0 when `k` has no entry. */
  function Lookup<K(==)>(g: seq<(K, real)>, k: K): real
  {
    if g == [] then 0.0 else if g[0].0 == k then g[0].1 else Lookup(g[1..], k)
  }

  function SumTotals<K(==)>(g: seq<(K, real)>): real
  {
    if g == [] then 0.0 else g[0].1 + SumTotals(g[1..])
  }

  lemma {:induction false} KeySetMembership<K>(g: seq<(K, real)>, k: K)
    ensures k in KeySet(g) <==> exists i :: 0 <= i < |g| && g[i].0 == k
  {
    if g != [] {
      KeySetMembership(g[1..], k);
      if exists i :: 0 <= i < |g| && g[i].0 == k {
        var i :| 0 <= i < |g| && g[i].0 == k;
        if i > 0 {
          assert g[1..][i - 1].0 == k;
        }
      }
      if exists i :: 0 <= i < |g[1..]| && g[1..][i].0 == k {
        var i :| 0 <= i < |g[1..]| && g[1..][i].0 == k;
        assert g[i + 1].0 == k;
      }
    }
  }

  /** With distinct keys, every entry is what `Lookup` finds for its key. */
  lemma {:induction false} LookupAt<K>(g: seq<(K, real)>, i: nat)
    requires DistinctKeys(g) && i < |g|
    ensures Lookup(g, g[i].0) == g[i].1
  {
    if i > 0 {
      LookupAt(g[1..], i - 1);
      KeySetMembership(g[1..], g[i].0);
      assert g[1..][i - 1] == g[i];
    }
  }

  lemma {:induction false} LookupAbsent<K>(g: seq<(K, real)>, k: K)
    requires k !in KeySet(g)
    ensures Lookup(g, k) == 0.0
  {
    if g != [] {
      LookupAbsent(g[1..], k);
    }
  }

  // ---------------------------------------------------------------------------
  // Grouping by category
  // ---------------------------------------------------------------------------

  /** Adds `c` to the entry for `k`, or appends a new entry for `k`. */
  function AddToGroup<K(==)>(g: seq<(K, real)>, k: K, c: real): seq<(K, real)>
  {
    if g == [] then [(k, c)]
    else if g[0].0 == k then [(k, g[0].1 + c)] + g[1..]
    else [g[0]] + AddToGroup(g[1..], k, c)
  }

  lemma {:induction false} AddToGroupSpec<K>(g: seq<(K, real)>, k: K, c: real)
    requires DistinctKeys(g)
    ensures DistinctKeys(AddToGroup(g, k, c))
    ensures KeySet(AddToGroup(g, k, c)) == KeySet(g) + {k}
    ensures forall k' :: Lookup(AddToGroup(g, k, c), k') == Lookup(g, k') + (if k' == k then c else 0.0)
    ensures SumTotals(AddToGroup(g, k, c)) == SumTotals(g) + c
  {
    if g != [] && g[0].0 != k {
      AddToGroupSpec(g[1..], k, c);
      var r := AddToGroup(g, k, c);
      assert r[1..] == AddToGroup(g[1..], k, c);
    } else if g != [] {
      var r := AddToGroup(g, k, c);
      assert r[1..] == g[1..];
    }
  }

  /** The sum of the costs of the rows whose category is `k`. */
  function CategoryTotal(rows: seq<Expense>, k: string): real
  {
    if rows == [] then 0.0
    else
      var last := rows[|rows| - 1];
      CategoryTotal(rows[..|rows| - 1], k) + (if last.categoria == Some(k) then last.costo else 0.0)
  }

  /** The categories that occur; rows whose category is NaN have none. */
  function Categories(rows: seq<Expense>): set<string>
  {
    if rows == [] then {}
    else
      var last := rows[|rows| - 1];
      Categories(rows[..|rows| - 1]) + (if last.categoria.Some? then {last.categoria.value} else {})
  }

  /** The sum of the costs of the rows that have a category. */
  function CategorisedTotal(rows: seq<Expense>): real
  {
    if rows == [] then 0.0
    else
      var last := rows[|rows| - 1];
      CategorisedTotal(rows[..|rows| - 1]) + (if last.categoria.Some? then last.costo else 0.0)
  }

  /** `groupby('Categoría')['Costo'].sum()`: NaN categories are left out. */
  function CategoryGroups(rows: seq<Expense>): seq<(string, real)>
  {
    if rows == [] then []
    else
      var g := CategoryGroups(rows[..|rows| - 1]);
      var last := rows[|rows| - 1];
      if last.categoria.Some? then AddToGroup(g, last.categoria.value, last.costo) else g
  }

  lemma {:induction false} CategoryGroupsSpec(rows: seq<Expense>)
    ensures DistinctKeys(CategoryGroups(rows))
    ensures KeySet(CategoryGroups(rows)) == Categories(rows)
    ensures forall k :: Lookup(CategoryGroups(rows), k) == CategoryTotal(rows, k)
    ensures SumTotals(CategoryGroups(rows)) == CategorisedTotal(rows)
  {
    if rows != [] {
      var prefix := rows[..|rows| - 1];
      CategoryGroupsSpec(prefix);
      var last := rows[|rows| - 1];
      if last.categoria.Some? {
        AddToGroupSpec(CategoryGroups(prefix), last.categoria.value, last.costo);
      }
    }
  }

  // ---------------------------------------------------------------------------
  // sort_values(ascending=False)
  // ---------------------------------------------------------------------------

  /** Totals never increase from one entry to a later one. */
  predicate NonIncreasing<K(==)>(g: seq<(K, real)>)
  {
    forall i, j :: 0 <= i < j < |g| ==> g[i].1 >= g[j].1
  }

  /** Inserts `x` before the first entry with a smaller total. */
  function InsertByTotal<K(==)>(x: (K, real), g: seq<(K, real)>): seq<(K, real)>
  {
    if g == [] then [x]
    else if x.1 >= g[0].1 then [x] + g
    else [g[0]] + InsertByTotal(x, g[1..])
  }

  function SortByTotal<K(==)>(g: seq<(K, real)>): seq<(K, real)>
  {
    if g == [] then [] else InsertByTotal(g[0], SortByTotal(g[1..]))
  }

  lemma {:induction false} InsertByTotalContents<K>(x: (K, real), g: seq<(K, real)>)
    ensures multiset(InsertByTotal(x, g)) == multiset(g) + multiset{x}
    ensures SumTotals(InsertByTotal(x, g)) == SumTotals(g) + x.1
  {
    if g != [] && x.1 < g[0].1 {
      InsertByTotalContents(x, g[1..]);
      var r := InsertByTotal(x, g);
      assert r == [g[0]] + InsertByTotal(x, g[1..]);
      assert g == [g[0]] + g[1..];
    }
  }

  lemma {:induction false} InsertByTotalKeys<K>(x: (K, real), g: seq<(K, real)>)
    ensures KeySet(InsertByTotal(x, g)) == KeySet(g) + {x.0}
    ensures DistinctKeys(g) && x.0 !in KeySet(g) ==> DistinctKeys(InsertByTotal(x, g))
  {
    var r := InsertByTotal(x, g);
    if g == [] {
    } else if x.1 >= g[0].1 {
      assert r[1..] == g;
    } else {
      InsertByTotalKeys(x, g[1..]);
      assert r[1..] == InsertByTotal(x, g[1..]);
    }
  }

  lemma {:induction false} InsertByTotalOrder<K>(x: (K, real), g: seq<(K, real)>)
    requires NonIncreasing(g)
    ensures NonIncreasing(InsertByTotal(x, g))
  {
    var r := InsertByTotal(x, g);
    if g == [] {
    } else if x.1 >= g[0].1 {
      assert r[1..] == g;
    } else {
      var t := InsertByTotal(x, g[1..]);
      InsertByTotalOrder(x, g[1..]);
      InsertByTotalContents(x, g[1..]);
      assert r == [g[0]] + t;
      forall j | 0 <= j < |t|
        ensures g[0].1 >= t[j].1
      {
        assert t[j] in multiset(t);
        if t[j] != x {
          assert t[j] in multiset(g[1..]);
          var m :| 0 <= m < |g[1..]| && g[1..][m] == t[j];
          assert g[m + 1] == t[j];
        }
      }
      forall i, j | 0 <= i < j < |r|
        ensures r[i].1 >= r[j].1
      {
        assert r[j] == t[j - 1];
        if i > 0 {
          assert r[i] == t[i - 1];
        }
      }
    }
  }

  /** The sort yields non-increasing totals and a permutation of the same entries. */
  lemma {:induction false} SortByTotalSpec<K>(g: seq<(K, real)>)
    ensures multiset(SortByTotal(g)) == multiset(g)
    ensures KeySet(SortByTotal(g)) == KeySet(g)
    ensures SumTotals(SortByTotal(g)) == SumTotals(g)
    ensures DistinctKeys(g) ==> DistinctKeys(SortByTotal(g))
    ensures NonIncreasing(SortByTotal(g))
  {
    if g != [] {
      SortByTotalSpec(g[1..]);
      InsertByTotalContents(g[0], SortByTotal(g[1..]));
      InsertByTotalKeys(g[0], SortByTotal(g[1..]));
      InsertByTotalOrder(g[0], SortByTotal(g[1..]));
      assert g == [g[0]] + g[1..];
    }
  }

  /** Lines 59-60 and 106: the category totals, largest first. */
  function CategoryAggregate(rows: seq<Expense>): seq<(string, real)>
  {
    SortByTotal(CategoryGroups(rows))
  }

  /**
   * The category aggregate has exactly one entry per category that occurs, each entry's
   * total is the sum of the costs in that category, the totals never increase, and
   * together they add up to the costs of all rows that have a category.
   */
  lemma {:induction false} CategoryAggregateSpec(rows: seq<Expense>)
    ensures DistinctKeys(CategoryAggregate(rows))
    ensures KeySet(CategoryAggregate(rows)) == Categories(rows)
    ensures forall i :: 0 <= i < |CategoryAggregate(rows)| ==>
              CategoryAggregate(rows)[i].1 == CategoryTotal(rows, CategoryAggregate(rows)[i].0)
    ensures NonIncreasing(CategoryAggregate(rows))
    ensures SumTotals(CategoryAggregate(rows)) == CategorisedTotal(rows)
  {
    var g := CategoryGroups(rows);
    var a := CategoryAggregate(rows);
    CategoryGroupsSpec(rows);
    SortByTotalSpec(g);
    forall i | 0 <= i < |a|
      ensures a[i].1 == CategoryTotal(rows, a[i].0)
    {
      assert a[i] in multiset(g);
      var m :| 0 <= m < |g| && g[m] == a[i];
      LookupAt(g, m);
    }
  }

  // ---------------------------------------------------------------------------
  // Grouping by date
  // ---------------------------------------------------------------------------

  /** Keys strictly increase: `groupby` sorts its keys. */
  predicate Chronological(g: seq<(Date, real)>)
  {
    forall i, j :: 0 <= i < j < |g| ==> DateLess(g[i].0, g[j].0)
  }

  /** Adds `c` to the entry for `d`, or inserts a new entry for `d` in date order. */
  function AddToDay(g: seq<(Date, real)>, d: Date, c: real): seq<(Date, real)>
  {
    if g == [] then [(d, c)]
    else if g[0].0 == d then [(d, g[0].1 + c)] + g[1..]
    else if DateLess(d, g[0].0) then [(d, c)] + g
    else [g[0]] + AddToDay(g[1..], d, c)
  }

  lemma {:induction false} ChronologicalDistinct(g: seq<(Date, real)>)
    requires Chronological(g)
    ensures DistinctKeys(g)
  {
    if g != [] {
      KeySetMembership(g[1..], g[0].0);
      ChronologicalTail(g);
      ChronologicalDistinct(g[1..]);
    }
  }

  lemma {:induction false} ChronologicalTail(g: seq<(Date, real)>)
    requires Chronological(g) && g != []
    ensures Chronological(g[1..])
  {
    var rest := g[1..];
    forall i, j | 0 <= i < j < |rest|
      ensures DateLess(rest[i].0, rest[j].0)
    {
      assert rest[i] == g[i + 1] && rest[j] == g[j + 1];
    }
  }

  /** In a chronological aggregate, the first date precedes every later key. */
  lemma {:induction false} FirstIsEarliest(g: seq<(Date, real)>, k: Date)
    requires Chronological(g) && g != [] && k in KeySet(g[1..])
    ensures DateLess(g[0].0, k)
  {
    KeySetMembership(g[1..], k);
    var m :| 0 <= m < |g[1..]| && g[1..][m].0 == k;
    assert g[m + 1] == g[1..][m];
  }

  lemma {:induction false} AddToDayContents(g: seq<(Date, real)>, d: Date, c: real)
    requires Chronological(g)
    ensures KeySet(AddToDay(g, d, c)) == KeySet(g) + {d}
    ensures forall k :: Lookup(AddToDay(g, d, c), k) == Lookup(g, k) + (if k == d then c else 0.0)
    ensures SumTotals(AddToDay(g, d, c)) == SumTotals(g) + c
  {
    var r := AddToDay(g, d, c);
    if g == [] {
    } else if g[0].0 == d {
      assert r[1..] == g[1..];
    } else if DateLess(d, g[0].0) {
      assert r[1..] == g;
      if d in KeySet(g[1..]) {
        FirstIsEarliest(g, d);
        DateTrichotomy(d, g[0].0);
      }
      LookupAbsent(g, d);
    } else {
      ChronologicalTail(g);
      AddToDayContents(g[1..], d, c);
      assert r[1..] == AddToDay(g[1..], d, c);
    }
  }

  lemma {:induction false} ChronologicalCons(x: (Date, real), t: seq<(Date, real)>)
    requires Chronological(t)
    requires forall j :: 0 <= j < |t| ==> DateLess(x.0, t[j].0)
    ensures Chronological([x] + t)
  {
    var r := [x] + t;
    forall i, j | 0 <= i < j < |r|
      ensures DateLess(r[i].0, r[j].0)
    {
      assert r[j] == t[j - 1];
      if i > 0 {
        assert r[i] == t[i - 1];
      }
    }
  }

  lemma {:induction false} AddToDayOrder(g: seq<(Date, real)>, d: Date, c: real)
    requires Chronological(g)
    ensures Chronological(AddToDay(g, d, c))
  {
    if g == [] {
    } else if g[0].0 == d {
      ChronologicalTail(g);
      forall j | 0 <= j < |g[1..]|
        ensures DateLess(d, g[1..][j].0)
      {
        assert g[1..][j] == g[j + 1];
      }
      ChronologicalCons((d, g[0].1 + c), g[1..]);
    } else if DateLess(d, g[0].0) {
      forall j | 0 <= j < |g|
        ensures DateLess(d, g[j].0)
      {
        if j > 0 {
          DateLessTransitive(d, g[0].0, g[j].0);
        }
      }
      ChronologicalCons((d, c), g);
    } else {
      DateTrichotomy(d, g[0].0);
      var rest := g[1..];
      ChronologicalTail(g);
      AddToDayOrder(rest, d, c);
      AddToDayContents(rest, d, c);
      var t := AddToDay(rest, d, c);
      forall j | 0 <= j < |t|
        ensures DateLess(g[0].0, t[j].0)
      {
        KeySetMembership(t, t[j].0);
        if t[j].0 != d {
          FirstIsEarliest(g, t[j].0);
        }
      }
      ChronologicalCons(g[0], t);
    }
  }

  /** The sum of the costs of the rows dated `d`. */
  function DayTotal(rows: seq<Expense>, d: Date): real
  {
    if rows == [] then 0.0
    else
      var last := rows[|rows| - 1];
      DayTotal(rows[..|rows| - 1], d) + (if last.fecha == Some(d) then last.costo else 0.0)
  }

  /** The dates that occur; rows whose date is NaT have none. */
  function Dates(rows: seq<Expense>): set<Date>
  {
    if rows == [] then {}
    else
      var last := rows[|rows| - 1];
      Dates(rows[..|rows| - 1]) + (if last.fecha.Some? then {last.fecha.value} else {})
  }

  /** The sum of the costs of the rows that have a date. */
  function DatedTotal(rows: seq<Expense>): real
  {
    if rows == [] then 0.0
    else
      var last := rows[|rows| - 1];
      DatedTotal(rows[..|rows| - 1]) + (if last.fecha.Some? then last.costo else 0.0)
  }

  /** Lines 77 and 113, `groupby('Fecha')['Costo'].sum()`: NaT dates are left out. */
  function DailyTotals(rows: seq<Expense>): seq<(Date, real)>
  {
    if rows == [] then []
    else
      var g := DailyTotals(rows[..|rows| - 1]);
      var last := rows[|rows| - 1];
      if last.fecha.Some? then AddToDay(g, last.fecha.value, last.costo) else g
  }

  lemma {:induction false} DailyGroupsSpec(rows: seq<Expense>)
    ensures Chronological(DailyTotals(rows))
    ensures KeySet(DailyTotals(rows)) == Dates(rows)
    ensures forall k :: Lookup(DailyTotals(rows), k) == DayTotal(rows, k)
    ensures SumTotals(DailyTotals(rows)) == DatedTotal(rows)
  {
    if rows != [] {
      var prefix := rows[..|rows| - 1];
      DailyGroupsSpec(prefix);
      var last := rows[|rows| - 1];
      if last.fecha.Some? {
        AddToDayContents(DailyTotals(prefix), last.fecha.value, last.costo);
        AddToDayOrder(DailyTotals(prefix), last.fecha.value, last.costo);
      }
    }
  }

  /**
   * The daily aggregate has exactly one entry per date that occurs, in strictly
   * increasing date order, each entry's total is the sum of that day's costs, and
   * together they add up to the costs of all dated rows.
   */
  lemma {:induction false} DailyTotalsSpec(rows: seq<Expense>)
    ensures Chronological(DailyTotals(rows))
    ensures KeySet(DailyTotals(rows)) == Dates(rows)
    ensures forall i :: 0 <= i < |DailyTotals(rows)| ==>
              DailyTotals(rows)[i].1 == DayTotal(rows, DailyTotals(rows)[i].0)
    ensures SumTotals(DailyTotals(rows)) == DatedTotal(rows)
  {
    var g := DailyTotals(rows);
    DailyGroupsSpec(rows);
    ChronologicalDistinct(g);
    forall i | 0 <= i < |g|
      ensures g[i].1 == DayTotal(rows, g[i].0)
    {
      LookupAt(g, i);
    }
  }
}

=== FILE: ledger.dfy ===
/** The records of the expense ledger: raw rows as read, calendar dates, cleaned rows. */
module Ledger {
  import opened Wrappers

  /** A CSV cell as pandas holds it: text, or `None` for NaN. */
  type Cell = Option<string>

  /**
   * A row as read from the ledger file. Besides the five columns the script uses,
   * `others` holds the cells of any further columns, which also take part in the
   * "all cells empty" test.
   */
  datatype RawRow = RawRow(
    fecha: Cell,
    costo: Cell,
    categoria: Cell,
    gastos: Cell,
    metodoPago: Cell,
    others: seq<Cell>)

  /** A calendar date; dates are ordered lexicographically on (year, month, day). */
  datatype Date = Date(year: nat, month: nat, day: nat)

  predicate DateLess(a: Date, b: Date)
  {
    a.year < b.year
    || (a.year == b.year && (a.month < b.month || (a.month == b.month && a.day < b.day)))
  }

  lemma {:induction false} DateTrichotomy(a: Date, b: Date)
    ensures DateLess(a, b) || a == b || DateLess(b, a)
    ensures !(DateLess(a, b) && DateLess(b, a))
  {
  }

  lemma {:induction false} DateLessTransitive(a: Date, b: Date, c: Date)
    requires DateLess(a, b) && DateLess(b, c)
    ensures DateLess(a, c)
  {
  }

  predicate IsLeapYear(y: nat)
  {
    y % 4 == 0 && (y % 100 != 0 || y % 400 == 0)
  }

  function DaysInMonth(y: nat, m: nat): nat
    requires 1 <= m <= 12
  {
    if m == 2 then (if IsLeapYear(y) then 29 else 28)
    else if m == 4 || m == 6 || m == 9 || m == 11 then 30
    else 31
  }

  /** The first and last midnights a pandas `Timestamp` (nanoseconds in 64 bits) can hold. */
  const FirstTimestampDate := Date(1677, 9, 22)
  const LastTimestampDate := Date(2262, 4, 11)

  /** A date that `to_datetime` can return: a real calendar day inside the Timestamp range. */
  predicate ValidDate(d: Date)
  {
    && 1 <= d.month <= 12
    && 1 <= d.day <= DaysInMonth(d.year, d.month)
    && !DateLess(d, FirstTimestampDate)
    && !DateLess(LastTimestampDate, d)
  }

  /**
   * A cleaned row: the date after parsing and forward-filling (still `None` when no
   * earlier row had a date), the parsed cost, and the renamed description
   * (`Gastos`) and payment-method (`Metodo de pago`) columns.
   */
  datatype Expense = Expense(
    fecha: Option<Date>,
    costo: real,
    categoria: Cell,
    descripcion: Cell,
    metodoPago: Cell,
    others: seq<Cell>)
}

=== FILE: parsing.dfy ===
/**
 * The two cell parsers of the cleaning stage: `Fecha` as day/month/year and the
 * currency-formatted `Costo`, together with the formats they invert.
 */
module Parsing {
  import opened Wrappers
  import opened Text
  import opened Ledger

  // ---------------------------------------------------------------------------
  // Dates: to_datetime(format='%d/%m/%Y', errors='coerce')
  // ---------------------------------------------------------------------------

  /**
   * Day and month of one or two digits, a four-digit year, separated by '/', and
   * nothing else; the date must exist and fit a Timestamp, otherwise the result is NaT.
   */
  function ParseDateText(s: string): (r: Option<Date>)
    ensures r.Some? ==> ValidDate(r.value)
  {
    var i := Find(s, '/');
    if i == |s| then None
    else
      var rest := s[i + 1..];
      var j := Find(rest, '/');
      if j == |rest| then None
      else
        var dd, mm, yyyy := s[..i], rest[..j], rest[j + 1..];
        if 1 <= |dd| <= 2 && 1 <= |mm| <= 2 && |yyyy| == 4
           && AllDigits(dd) && AllDigits(mm) && AllDigits(yyyy)
        then
          var d := Date(DigitsValue(yyyy), DigitsValue(mm), DigitsValue(dd));
          if ValidDate(d) then Some(d) else None
        else None
  }

  /** A missing cell is NaT; text goes through the day/month/year parser. */
  function ParseDate(c: Cell): (r: Option<Date>)
    ensures r.Some? ==> c.Some? && ValidDate(r.value)
  {
    match c
    case None => None
    case Some(s) => ParseDateText(s)
  }

  /** `strftime('%d/%m/%Y')`, used when the day of largest spend is reported. */
  function FormatDate(d: Date): (s: string)
    requires ValidDate(d)
    ensures |s| == 10
  {
    assert Pow10(2) == 100 && Pow10(4) == 10000;
    Fixed(d.day, 2) + "/" + Fixed(d.month, 2) + "/" + Fixed(d.year, 4)
  }

  /** Every valid date survives being printed as dd/mm/yyyy and parsed back. */
  lemma {:induction false} DateRoundTrip(d: Date)
    requires ValidDate(d)
    ensures ParseDateText(FormatDate(d)) == Some(d)
  {
    assert Pow10(2) == 100 && Pow10(4) == 10000;
    var dd, mm, yyyy := Fixed(d.day, 2), Fixed(d.month, 2), Fixed(d.year, 4);
    var s := FormatDate(d);
    assert s == dd + "/" + (mm + "/" + yyyy);
    assert IsDigit(s[0]) && IsDigit(s[1]) && s[2] == '/';
    var i := Find(s, '/');
    assert i == 2;
    var rest := s[i + 1..];
    assert rest == mm + "/" + yyyy;
    assert IsDigit(rest[0]) && IsDigit(rest[1]) && rest[2] == '/';
    var j := Find(rest, '/');
    assert j == 2;
    assert s[..i] == dd && rest[..j] == mm && rest[j + 1..] == yyyy;
  }

  // ---------------------------------------------------------------------------
  // Costs: astype(str), replace '$' / '.' / ',', strip, to_numeric(errors='coerce')
  // ---------------------------------------------------------------------------

  /** `astype(str)`: a NaN cell becomes the text "nan". */
  function CostText(c: Cell): string
  {
    match c
    case None => "nan"
    case Some(s) => s
  }

  /** `str.replace(c, '')`. */
  function RemoveChar(s: string, c: char): string
  {
    if s == [] then [] else (if s[0] == c then [] else [s[0]]) + RemoveChar(s[1..], c)
  }

  /** `str.replace(c, d)` for single characters. */
  function ReplaceChar(s: string, c: char, d: char): string
  {
    if s == [] then [] else [if s[0] == c then d else s[0]] + ReplaceChar(s[1..], c, d)
  }

  /** The text of lines 31-37: currency sign and every '.' removed, ',' made '.', stripped. */
  function NormaliseCost(s: string): string
  {
    Trim(ReplaceChar(RemoveChar(RemoveChar(s, '$'), '.'), ',', '.'))
  }

  lemma {:induction false} RemoveCharCount(s: string, c: char, x: char)
    ensures Count(RemoveChar(s, c), x) == if x == c then 0 else Count(s, x)
  {
    if s != [] {
      RemoveCharCount(s[1..], c, x);
      CountAppend(if s[0] == c then [] else [s[0]], RemoveChar(s[1..], c), x);
    }
  }

  lemma {:induction false} ReplaceCharCount(s: string, c: char, d: char, x: char)
    requires c != d
    ensures Count(ReplaceChar(s, c, d), x)
            == if x == c then 0 else if x == d then Count(s, d) + Count(s, c) else Count(s, x)
  {
    if s != [] {
      ReplaceCharCount(s[1..], c, d, x);
      CountAppend([if s[0] == c then d else s[0]], ReplaceChar(s[1..], c, d), x);
    }
  }

  /** Whitespace around `r` adds no copy of a non-blank character. */
  lemma {:induction false} CountAround(head: string, r: string, tail: string, x: char)
    requires AllSpace(head) && AllSpace(tail) && !IsSpace(x)
    ensures Count(head + r + tail, x) == Count(r, x)
  {
    CountAppend(head + r, tail, x);
    CountAppend(head, r, x);
    CountSpaces(head, x);
    CountSpaces(tail, x);
  }

  /** Trimming removes only whitespace, so it keeps every other character. */
  lemma {:induction false} TrimKeepsCount(s: string, x: char)
    requires !IsSpace(x)
    ensures Count(Trim(s), x) == Count(s, x)
  {
    var r := Trim(s);
    TrimSpec(s);
    var i := |s| - |TrimLeft(s)|;
    CountAround(s[..i], r, s[i + |r|..], x);
  }

  /** How many copies of a non-blank character `x` the normalised cost text holds. */
  lemma {:induction false} NormaliseCostCount(s: string, x: char)
    requires !IsSpace(x)
    ensures Count(NormaliseCost(s), x)
            == if x == '$' || x == ',' then 0 else if x == '.' then Count(s, ',') else Count(s, x)
  {
    var a := RemoveChar(s, '$');
    var b := RemoveChar(a, '.');
    var u := ReplaceChar(b, ',', '.');
    TrimKeepsCount(u, x);
    ReplaceCharCount(b, ',', '.', x);
    if x == '.' {
      RemoveCharCount(a, '.', ',');
      RemoveCharCount(s, '$', ',');
      RemoveCharCount(a, '.', '.');
    } else {
      RemoveCharCount(a, '.', x);
      RemoveCharCount(s, '$', x);
    }
  }

  /**
   * The normalised cost text keeps no '$' and no ','; its '.' are exactly the input's ','
   * (none of the input's own '.' survive); every other non-blank character is kept; and it
   * neither starts nor ends with whitespace.
   */
  lemma {:induction false} NormaliseCostSpec(s: string)
    ensures '$' !in NormaliseCost(s) && ',' !in NormaliseCost(s)
    ensures Count(NormaliseCost(s), '.') == Count(s, ',')
    ensures forall x :: !IsSpace(x) && x != '$' && x != '.' && x != ',' ==>
              Count(NormaliseCost(s), x) == Count(s, x)
    ensures var r := NormaliseCost(s); r == [] || (!IsSpace(r[0]) && !IsSpace(r[|r| - 1]))
  {
    NormaliseCostCount(s, '$');
    NormaliseCostCount(s, ',');
    CountZero(NormaliseCost(s), '$');
    CountZero(NormaliseCost(s), ',');
    NormaliseCostCount(s, '.');
    forall x | !IsSpace(x) && x != '$' && x != '.' && x != ','
      ensures Count(NormaliseCost(s), x) == Count(s, x)
    {
      NormaliseCostCount(s, x);
    }
  }

  /** `v` divided by ten `n` times. */
  function Shift(v: real, n: nat): real
  {
    if n == 0 then v else Shift(v, n - 1) / 10.0
  }

  /** The value of `whole.frac` for digit strings `whole` and `frac`. */
  function DecimalValue(whole: string, frac: string): real
    requires AllDigits(whole) && AllDigits(frac)
  {
    DigitsValue(whole) as real + Shift(DigitsValue(frac) as real, |frac|)
  }

  /** Digits, optionally followed by '.' and more digits, with at least one digit in all. */
  function ParseUnsigned(body: string): Option<real>
  {
    var k := Find(body, '.');
    var whole := body[..k];
    var frac := if k < |body| then body[k + 1..] else "";
    if AllDigits(whole) && AllDigits(frac) && |whole| + |frac| > 0
    then Some(DecimalValue(whole, frac))
    else None
  }

  /**
   * `to_numeric` on the normalised text: an optional sign, then an unsigned decimal.
   * Anything else is NaN.
   */
  function ParseDecimal(s: string): Option<real>
  {
    if |s| > 0 && s[0] == '-' then
      match ParseUnsigned(s[1..])
      case Some(v) => Some(-v)
      case None => None
    else if |s| > 0 && s[0] == '+' then ParseUnsigned(s[1..])
    else ParseUnsigned(s)
  }

  /** The cost column after lines 31-39: the parsed number, or `None` (NaN). */
  function ParseCost(c: Cell): Option<real>
  {
    ParseDecimal(NormaliseCost(CostText(c)))
  }

  // ---------------------------------------------------------------------------
  // The currency format the cleaning undoes
  // ---------------------------------------------------------------------------

  /** Digits grouped in threes from the right with '.', as in "1.234.567". */
  function GroupThousands(ds: string): string
  {
    if |ds| <= 3 then ds else GroupThousands(ds[..|ds| - 3]) + "." + ds[|ds| - 3..]
  }

  /** An amount of `cents` in the ledger's format: "$1.234,56". */
  function PesoText(cents: nat): string
  {
    assert Pow10(2) == 100;
    "$" + (GroupThousands(NatToDigits(cents / 100)) + ("," + Fixed(cents % 100, 2)))
  }

  lemma {:induction false} RemoveCharAppend(a: string, b: string, c: char)
    ensures RemoveChar(a + b, c) == RemoveChar(a, c) + RemoveChar(b, c)
  {
    if a == [] {
      assert a + b == b;
    } else {
      assert (a + b)[1..] == a[1..] + b;
      RemoveCharAppend(a[1..], b, c);
    }
  }

  lemma {:induction false} ReplaceCharAppend(a: string, b: string, c: char, d: char)
    ensures ReplaceChar(a + b, c, d) == ReplaceChar(a, c, d) + ReplaceChar(b, c, d)
  {
    if a == [] {
      assert a + b == b;
    } else {
      assert (a + b)[1..] == a[1..] + b;
      ReplaceCharAppend(a[1..], b, c, d);
    }
  }

  lemma {:induction false} RemoveAbsent(s: string, c: char)
    requires c !in s
    ensures RemoveChar(s, c) == s
  {
    if s != [] {
      RemoveAbsent(s[1..], c);
    }
  }

  lemma {:induction false} ReplaceAbsent(s: string, c: char, d: char)
    requires c !in s
    ensures ReplaceChar(s, c, d) == s
  {
    if s != [] {
      ReplaceAbsent(s[1..], c, d);
    }
  }

  lemma {:induction false} GroupThousandsNoSigns(ds: string)
    requires AllDigits(ds)
    ensures '$' !in GroupThousands(ds) && ',' !in GroupThousands(ds)
  {
    if |ds| > 3 {
      var hi, lo := ds[..|ds| - 3], ds[|ds| - 3..];
      GroupThousandsNoSigns(hi);
      assert GroupThousands(ds) == GroupThousands(hi) + "." + lo;
    }
  }

  /** Removing '.' from `g + "." + lo` drops the separator, and `lo` has no '.' to lose. */
  lemma {:induction false} RemoveSeparator(g: string, lo: string)
    requires '.' !in lo
    ensures RemoveChar(g + "." + lo, '.') == RemoveChar(g, '.') + lo
  {
    var t := "." + lo;
    assert g + "." + lo == g + t;
    RemoveCharAppend(g, t, '.');
    assert t[1..] == lo;
    RemoveLeading(t, '.');
    RemoveAbsent(lo, '.');
  }

  lemma {:induction false} GroupThousandsUndone(ds: string)
    requires AllDigits(ds)
    ensures RemoveChar(GroupThousands(ds), '.') == ds
  {
    if |ds| <= 3 {
      assert '.' !in ds;
      RemoveAbsent(ds, '.');
    } else {
      var hi, lo := ds[..|ds| - 3], ds[|ds| - 3..];
      GroupThousandsUndone(hi);
      assert '.' !in lo;
      RemoveSeparator(GroupThousands(hi), lo);
      assert hi + lo == ds;
    }
  }

  lemma {:induction false} RemoveLeading(s: string, c: char)
    requires s != [] && s[0] == c
    ensures RemoveChar(s, c) == RemoveChar(s[1..], c)
  {
  }

  /** Line 34 on a ledger amount: only the leading '$' goes. */
  lemma {:induction false} StripCurrency(body: string)
    requires '$' !in body
    ensures RemoveChar("$" + body, '$') == body
  {
    assert ("$" + body)[1..] == body;
    RemoveAbsent(body, '$');
  }

  /** Line 35 on a ledger amount: the thousands separators go. */
  lemma {:induction false} StripThousands(ds: string, fr: string)
    requires AllDigits(ds) && AllDigits(fr)
    ensures RemoveChar(GroupThousands(ds) + ("," + fr), '.') == ds + ("," + fr)
  {
    RemoveCharAppend(GroupThousands(ds), "," + fr, '.');
    GroupThousandsUndone(ds);
    assert '.' !in "," + fr;
    RemoveAbsent("," + fr, '.');
  }

  /** Line 36 on a ledger amount: the decimal comma becomes a point. */
  lemma {:induction false} CommaToPoint(ds: string, fr: string)
    requires AllDigits(ds) && AllDigits(fr)
    ensures ReplaceChar(ds + ("," + fr), ',', '.') == ds + ("." + fr)
  {
    ReplaceCharAppend(ds, "," + fr, ',', '.');
    assert ',' !in ds && ',' !in fr;
    ReplaceAbsent(ds, ',', '.');
    assert ("," + fr)[1..] == fr;
    ReplaceAbsent(fr, ',', '.');
  }

  /** Parsing a decimal written as whole digits, '.', and two fraction digits. */
  lemma {:induction false} ParseTwoDecimals(whole: string, frac: string)
    requires AllDigits(whole) && |whole| >= 1 && AllDigits(frac) && |frac| == 2
    ensures ParseDecimal(whole + ("." + frac)) == Some(DecimalValue(whole, frac))
  {
    var s := whole + ("." + frac);
    assert s[|whole|] == '.';
    assert IsDigit(s[0]);
    assert Find(s, '.') == |whole|;
    assert s[..|whole|] == whole && s[|whole| + 1..] == frac;
  }

  /** The digits of a whole number of cents, split at the decimal point. */
  function CentsText(cents: nat): string
  {
    assert Pow10(2) == 100;
    NatToDigits(cents / 100) + ("." + Fixed(cents % 100, 2))
  }

  lemma {:induction false} CentsValue(cents: nat)
    ensures ParseDecimal(CentsText(cents)) == Some(cents as real / 100.0)
  {
    assert Pow10(2) == 100;
    var ds, fr := NatToDigits(cents / 100), Fixed(cents % 100, 2);
    ParseTwoDecimals(ds, fr);
    var f := (cents % 100) as real;
    assert Shift(f, 2) == f / 100.0 by {
      assert Shift(f, 1) == f / 10.0;
    }
    assert (cents / 100) as real * 100.0 + (cents % 100) as real == cents as real;
  }

  lemma {:induction false} NormalisePeso(cents: nat)
    ensures NormaliseCost(PesoText(cents)) == CentsText(cents)
  {
    assert Pow10(2) == 100;
    var ds := NatToDigits(cents / 100);
    var g := GroupThousands(ds);
    var fr := Fixed(cents % 100, 2);
    var u := ds + ("." + fr);
    assert ReplaceChar(RemoveChar(RemoveChar(PesoText(cents), '$'), '.'), ',', '.') == u by {
      assert PesoText(cents) == "$" + (g + ("," + fr));
      assert '$' !in g + ("," + fr) by {
        GroupThousandsNoSigns(ds);
        assert '$' !in fr;
      }
      StripCurrency(g + ("," + fr));
      StripThousands(ds, fr);
      CommaToPoint(ds, fr);
    }
    assert !IsSpace(u[0]) && !IsSpace(u[|u| - 1]);
    TrimOfTrimmed(u);
  }

  /**
   * Cleaning undoes the ledger's currency format: for every non-negative amount in
   * cents, its "$1.234,56" text parses back to exactly that amount.
   */
  lemma {:induction false} ParseCostRoundTrip(cents: nat)
    ensures ParseCost(Some(PesoText(cents))) == Some(cents as real / 100.0)
  {
    NormalisePeso(cents);
    CentsValue(cents);
  }

  /** The pieces of "$1.234,56": the whole pesos, grouped, and the two-digit cents. */
  lemma {:induction false} PesoTextPieces()
    ensures NatToDigits(1234) == "1234" && GroupThousands("1234") == "1.234" && Fixed(56, 2) == "56"
  {
    var ds := "1234";
    assert ds[..1] == "1";
    assert ds[1..] == "234";
    assert GroupThousands(ds) == "1" + "." + "234";
  }

  lemma {:induction false} PesoTextExample()
    ensures PesoText(123456) == "$1.234,56"
  {
    assert Pow10(2) == 100;
    PesoTextPieces();
  }

  /** The worked example of the ledger format: "$1.234,56" is 1234.56. */
  lemma {:induction false} PesoExample()
    ensures ParseCost(Some("$1.234,56")) == Some(1234.56)
  {
    PesoTextExample();
    ParseCostRoundTrip(123456);
  }

  /** An unsigned whole number parses to its value. */
  lemma {:induction false} ParseWhole(ds: string)
    requires AllDigits(ds) && |ds| >= 1
    ensures ParseDecimal(ds) == Some(DecimalValue(ds, ""))
  {
    assert ParseDecimal(ds) == ParseUnsigned(ds) by {
      assert IsDigit(ds[0]);
    }
    assert Find(ds, '.') == |ds| by {
      assert forall i :: 0 <= i < |ds| ==> ds[i] != '.';
    }
    assert ds[..|ds|] == ds;
  }

  lemma {:induction false} WholeValue(ds: string)
    requires AllDigits(ds)
    ensures DecimalValue(ds, "") == DigitsValue(ds) as real
  {
    assert DigitsValue("") == 0;
  }

  lemma {:induction false} NormaliseDottedDigits(whole: string, frac: string)
    requires AllDigits(whole) && AllDigits(frac) && |whole| >= 1
    ensures NormaliseCost(whole + ("." + frac)) == whole + frac
  {
    var t, ds := whole + ("." + frac), whole + frac;
    calc {
      NormaliseCost(t);
      Trim(ReplaceChar(RemoveChar(RemoveChar(t, '$'), '.'), ',', '.'));
      { assert '$' !in t;
        RemoveAbsent(t, '$'); }
      Trim(ReplaceChar(RemoveChar(t, '.'), ',', '.'));
      { RemoveCharAppend(whole, "." + frac, '.');
        assert '.' !in whole && '.' !in frac;
        RemoveAbsent(whole, '.');
        RemoveLeading("." + frac, '.');
        assert ("." + frac)[1..] == frac;
        RemoveAbsent(frac, '.'); }
      Trim(ReplaceChar(ds, ',', '.'));
      { assert ',' !in ds;
        ReplaceAbsent(ds, ',', '.'); }
      Trim(ds);
      { assert !IsSpace(ds[0]) && !IsSpace(ds[|ds| - 1]);
        TrimOfTrimmed(ds); }
      ds;
    }
  }

  /**
   * Every '.' is removed, even one meant as a decimal point: "12.50" is read as 1250,
   * the whole digit string.
   */
  lemma {:induction false} DecimalPointQuirk(whole: string, frac: string)
    requires AllDigits(whole) && AllDigits(frac) && |whole| >= 1
    ensures ParseCost(Some(whole + ("." + frac))) == Some(DigitsValue(whole + frac) as real)
  {
    NormaliseDottedDigits(whole, frac);
    assert AllDigits(whole + frac);
    ParseWhole(whole + frac);
    WholeValue(whole + frac);
  }

  /** Text without '$', '.' or ',' and without whitespace at its ends is left as it is. */
  lemma {:induction false} NormalisePlain(s: string)
    requires '$' !in s && '.' !in s && ',' !in s
    requires s == [] || (!IsSpace(s[0]) && !IsSpace(s[|s| - 1]))
    ensures NormaliseCost(s) == s
  {
    RemoveAbsent(s, '$');
    RemoveAbsent(s, '.');
    ReplaceAbsent(s, ',', '.');
    TrimOfTrimmed(s);
  }

  /** Text that starts with anything but a digit, a sign or a point is not a number. */
  lemma {:induction false} NotNumberStart(s: string)
    requires s != [] && !IsDigit(s[0]) && s[0] != '-' && s[0] != '+' && s[0] != '.'
    ensures ParseDecimal(s) == None
  {
    var k := Find(s, '.');
    assert k > 0;
    assert s[..k][0] == s[0];
  }

  /** A missing cost cell becomes the text "nan", which is not a number. */
  lemma {:induction false} MissingCostIsNull()
    ensures ParseCost(None) == None
  {
    var t := CostText(None);
    assert '$' !in t && '.' !in t && ',' !in t;
    assert !IsSpace(t[0]) && !IsSpace(t[|t| - 1]);
    NormalisePlain(t);
    NotNumberStart(t);
  }
}

=== FILE: report.dfy ===
/**
 * The written summary of analisis_gastos.py (lines 101-125): the grand total, the
 * per-category shares, the day with the largest total and the largest single expense.
 */
module Report {
  import opened Wrappers
  import opened Ledger
  import opened Grouping
  import Cleaning

  /** Line 101: the sum of every retained cost, whatever its category or date. */
  function Total(rows: seq<Expense>): real
  {
    if rows == [] then 0.0 else Total(rows[..|rows| - 1]) + rows[|rows| - 1].costo
  }

  /** With no NaN category, the category totals add up to the grand total. */
  lemma {:induction false} CategorisedIsTotal(rows: seq<Expense>)
    requires forall i :: 0 <= i < |rows| ==> rows[i].categoria.Some?
    ensures CategorisedTotal(rows) == Total(rows)
  {
    if rows != [] {
      CategorisedIsTotal(rows[..|rows| - 1]);
    }
  }

  lemma {:induction false} CategoryTotalsAddUp(rows: seq<Expense>)
    requires forall i :: 0 <= i < |rows| ==> rows[i].categoria.Some?
    ensures SumTotals(CategoryAggregate(rows)) == Total(rows)
  {
    CategoryAggregateSpec(rows);
    CategorisedIsTotal(rows);
  }

  /** With no NaT date, the daily totals add up to the grand total. */
  lemma {:induction false} DatedIsTotal(rows: seq<Expense>)
    requires forall i :: 0 <= i < |rows| ==> rows[i].fecha.Some?
    ensures DatedTotal(rows) == Total(rows)
  {
    if rows != [] {
      DatedIsTotal(rows[..|rows| - 1]);
    }
  }

  lemma {:induction false} DailyTotalsAddUp(rows: seq<Expense>)
    requires forall i :: 0 <= i < |rows| ==> rows[i].fecha.Some?
    ensures SumTotals(DailyTotals(rows)) == Total(rows)
  {
    DailyTotalsSpec(rows);
    DatedIsTotal(rows);
  }

  // ---------------------------------------------------------------------------
  // Lines 106-109: the category breakdown
  // ---------------------------------------------------------------------------

  /** One line of the breakdown; the percentage is absent when the grand total is 0. */
  datatype Share = Share(categoria: string, costo: real, porcentaje: Option<real>)

  function Percent(costo: real, total: real): Option<real>
  {
    if total == 0.0 then None else Some(costo / total * 100.0)
  }

  function Shares(g: seq<(string, real)>, total: real): (s: seq<Share>)
    ensures |s| == |g|
  {
    if g == [] then [] else [Share(g[0].0, g[0].1, Percent(g[0].1, total))] + Shares(g[1..], total)
  }

  function Breakdown(rows: seq<Expense>): seq<Share>
  {
    Shares(CategoryAggregate(rows), Total(rows))
  }

  /** The sum of the percentages that are present. */
  function SumPercent(s: seq<Share>): real
  {
    if s == [] then 0.0
    else (if s[0].porcentaje.Some? then s[0].porcentaje.value else 0.0) + SumPercent(s[1..])
  }

  lemma {:induction false} SharesSpec(g: seq<(string, real)>, total: real)
    ensures forall i :: 0 <= i < |g| ==>
              Shares(g, total)[i] == Share(g[i].0, g[i].1, Percent(g[i].1, total))
    ensures total != 0.0 ==> SumPercent(Shares(g, total)) == SumTotals(g) / total * 100.0
  {
    if g != [] {
      SharesSpec(g[1..], total);
      var s := Shares(g, total);
      assert s[1..] == Shares(g[1..], total);
      if total != 0.0 {
        var a := g[0].1;
        var b := SumTotals(g[1..]);
        assert a / total * 100.0 + b / total * 100.0 == (a + b) / total * 100.0;
      }
    }
  }

  /**
   * The breakdown lists the categories largest first, each with its total and its
   * share of the grand total.
   */
  lemma {:induction false} BreakdownSpec(rows: seq<Expense>)
    ensures |Breakdown(rows)| == |CategoryAggregate(rows)|
    ensures forall i :: 0 <= i < |Breakdown(rows)| ==>
              && Breakdown(rows)[i].categoria == CategoryAggregate(rows)[i].0
              && Breakdown(rows)[i].costo == CategoryTotal(rows, Breakdown(rows)[i].categoria)
              && Breakdown(rows)[i].porcentaje == Percent(Breakdown(rows)[i].costo, Total(rows))
    ensures forall i, j :: 0 <= i < j < |Breakdown(rows)| ==> Breakdown(rows)[i].costo >= Breakdown(rows)[j].costo
  {
    var a := CategoryAggregate(rows);
    CategoryAggregateSpec(rows);
    SharesSpec(a, Total(rows));
  }

  /** With no NaN category and a nonzero grand total, the percentages add up to 100. */
  lemma {:induction false} PercentagesAddUp(rows: seq<Expense>)
    requires forall i :: 0 <= i < |rows| ==> rows[i].categoria.Some?
    requires Total(rows) != 0.0
    ensures SumPercent(Breakdown(rows)) == 100.0
  {
    SharesSpec(CategoryAggregate(rows), Total(rows));
    CategoryTotalsAddUp(rows);
  }

  // ---------------------------------------------------------------------------
  // idxmax
  // ---------------------------------------------------------------------------

  /** The position of the first largest value. */
  function ArgMax(xs: seq<real>): (k: nat)
    requires xs != []
    ensures k < |xs|
    ensures forall j :: 0 <= j < |xs| ==> xs[j] <= xs[k]
    ensures forall j :: 0 <= j < k ==> xs[j] < xs[k]
  {
    if |xs| == 1 then 0
    else
      var k := ArgMax(xs[..|xs| - 1]);
      if xs[|xs| - 1] > xs[k] then |xs| - 1 else k
  }

  function Amounts(g: seq<(Date, real)>): (xs: seq<real>)
    ensures |xs| == |g|
  {
    seq(|g|, i requires 0 <= i < |g| => g[i].1)
  }

  function Costs(rows: seq<Expense>): (xs: seq<real>)
    ensures |xs| == |rows|
  {
    seq(|rows|, i requires 0 <= i < |rows| => rows[i].costo)
  }

  // ---------------------------------------------------------------------------
  // Lines 113-116: the day with the largest total
  // ---------------------------------------------------------------------------

  /** `idxmax()` and `max()` of the daily totals. */
  function BusiestDay(rows: seq<Expense>): (Date, real)
    requires DailyTotals(rows) != []
  {
    var g := DailyTotals(rows);
    g[ArgMax(Amounts(g))]
  }

  /**
   * The reported day is a date that occurs, the reported amount is that day's total,
   * no day's total is larger, and every earlier day's total is strictly smaller.
   */
  lemma {:induction false} BusiestDaySpec(rows: seq<Expense>)
    requires DailyTotals(rows) != []
    ensures BusiestDay(rows).0 in Dates(rows)
    ensures BusiestDay(rows).1 == DayTotal(rows, BusiestDay(rows).0)
    ensures forall d :: d in Dates(rows) ==> DayTotal(rows, d) <= BusiestDay(rows).1
    ensures forall d :: d in Dates(rows) && DateLess(d, BusiestDay(rows).0) ==>
              DayTotal(rows, d) < BusiestDay(rows).1
  {
    var g := DailyTotals(rows);
    var xs := Amounts(g);
    var k := ArgMax(xs);
    DailyTotalsSpec(rows);
    KeySetMembership(g, g[k].0);
    forall d | d in Dates(rows)
      ensures DayTotal(rows, d) <= g[k].1
      ensures DateLess(d, g[k].0) ==> DayTotal(rows, d) < g[k].1
    {
      KeySetMembership(g, d);
      var j :| 0 <= j < |g| && g[j].0 == d;
      assert xs[j] == g[j].1 && xs[k] == g[k].1;
      if DateLess(d, g[k].0) {
        if j >= k {
          DateTrichotomy(g[k].0, d);
        }
      }
    }
  }

  // ---------------------------------------------------------------------------
  // Lines 120-125: the largest single expense
  // ---------------------------------------------------------------------------

  /** `df_gastos_limpio['Costo'].idxmax()`: the position of the first largest cost. */
  function LargestExpense(rows: seq<Expense>): (i: nat)
    requires rows != []
    ensures i < |rows|
  {
    ArgMax(Costs(rows))
  }

  /** Lines 123-125: the description, or 'Desconocido' when it is null. */
  function DescriptionOf(e: Expense): string
  {
    if e.descripcion.Some? then e.descripcion.value else "Desconocido"
  }

  /** The largest expense costs at least as much as every row and more than every earlier row. */
  lemma {:induction false} LargestExpenseSpec(rows: seq<Expense>)
    requires rows != []
    ensures forall j :: 0 <= j < |rows| ==> rows[j].costo <= rows[LargestExpense(rows)].costo
    ensures forall j :: 0 <= j < LargestExpense(rows) ==> rows[j].costo < rows[LargestExpense(rows)].costo
  {
    var xs := Costs(rows);
    var i := ArgMax(xs);
    forall j | 0 <= j < |rows|
      ensures rows[j].costo <= rows[i].costo
      ensures j < i ==> rows[j].costo < rows[i].costo
    {
      assert xs[j] == rows[j].costo && xs[i] == rows[i].costo;
    }
  }

  // ---------------------------------------------------------------------------
  // The whole summary
  // ---------------------------------------------------------------------------

  datatype Summary = Summary(
    total: real,
    breakdown: seq<Share>,
    busiestDay: Date,
    busiestDayAmount: real,
    largestCost: real,
    largestDescription: string)

  /** `idxmax` of an empty daily series raises: no retained row has a date. */
  datatype SummaryError = NoDailyTotals

  function Summarise(rows: seq<Expense>): Result<Summary, SummaryError>
  {
    var daily := DailyTotals(rows);
    if daily == [] then Err(NoDailyTotals)
    else
      var day := BusiestDay(rows);
      var top := rows[LargestExpense(rows)];
      Ok(Summary(Total(rows), Breakdown(rows), day.0, day.1, top.costo, DescriptionOf(top)))
  }

  lemma {:induction false} DatesEmpty(rows: seq<Expense>)
    ensures Dates(rows) == {} <==> forall i :: 0 <= i < |rows| ==> rows[i].fecha.None?
  {
    if rows != [] {
      var prefix := rows[..|rows| - 1];
      DatesEmpty(prefix);
      if forall i :: 0 <= i < |rows| ==> rows[i].fecha.None? {
        assert forall i :: 0 <= i < |prefix| ==> prefix[i] == rows[i];
      }
      if Dates(rows) == {} {
        forall i | 0 <= i < |rows|
          ensures rows[i].fecha.None?
        {
          if i < |prefix| {
            assert prefix[i] == rows[i];
          }
        }
      }
    }
  }

  /**
   * The summary fails exactly when no retained row has a date. Otherwise it reports the
   * grand total and the breakdown; a busiest day that occurs, with its own total, which no
   * day exceeds and every earlier day falls short of; and the cost and description
   * (or 'Desconocido') of the first row whose cost no row exceeds.
   */
  lemma {:induction false} SummariseSpec(rows: seq<Expense>)
    ensures Summarise(rows).Err? <==> forall i :: 0 <= i < |rows| ==> rows[i].fecha.None?
    ensures Summarise(rows).Ok? ==>
              var s := Summarise(rows).value;
              && s.total == Total(rows)
              && s.breakdown == Breakdown(rows)
              && s.busiestDay in Dates(rows)
              && s.busiestDayAmount == DayTotal(rows, s.busiestDay)
              && (forall d :: d in Dates(rows) ==> DayTotal(rows, d) <= s.busiestDayAmount)
              && (forall d :: d in Dates(rows) && DateLess(d, s.busiestDay) ==>
                    DayTotal(rows, d) < s.busiestDayAmount)
              && (forall i :: 0 <= i < |rows| ==> rows[i].costo <= s.largestCost)
              && (exists i :: 0 <= i < |rows| && rows[i].costo == s.largestCost
                    && s.largestDescription == DescriptionOf(rows[i])
                    && forall j :: 0 <= j < i ==> rows[j].costo < s.largestCost)
  {
    DailyTotalsSpec(rows);
    DatesEmpty(rows);
    if Summarise(rows).Ok? {
      BusiestDaySpec(rows);
      LargestExpenseSpec(rows);
      var i := LargestExpense(rows);
      assert rows[i].costo == Summarise(rows).value.largestCost;
    }
  }

  /** The script's data flow: clean the rows read from the file, then summarise them. */
  method Analyse(raw: seq<RawRow>) returns (r: Result<Summary, SummaryError>)
    ensures r == Summarise(Cleaning.Cleaned(raw))
  {
    var rows := Cleaning.Clean(raw);
    r := Summarise(rows);
  }

  // ---------------------------------------------------------------------------
  // Worked example
  // ---------------------------------------------------------------------------

  /**
   * Costs 100 and 50 in 'Comida' and 25 in 'Transporte': the aggregate is Comida 150,
   * Transporte 25, the total 175, and the shares 600/7 % and 100/7 % (85.71 % and 14.29 %).
   */
  lemma {:induction false} BreakdownExample(d: Date)
    ensures var rows := [
              Expense(Some(d), 100.0, Some("Comida"), None, None, []),
              Expense(Some(d), 50.0, Some("Comida"), None, None, []),
              Expense(Some(d), 25.0, Some("Transporte"), None, None, [])];
            && CategoryAggregate(rows) == [("Comida", 150.0), ("Transporte", 25.0)]
            && Total(rows) == 175.0
            && Breakdown(rows) == [Share("Comida", 150.0, Some(600.0 / 7.0)), Share("Transporte", 25.0, Some(100.0 / 7.0))]
  {
    var rows := [
      Expense(Some(d), 100.0, Some("Comida"), None, None, []),
      Expense(Some(d), 50.0, Some("Comida"), None, None, []),
      Expense(Some(d), 25.0, Some("Transporte"), None, None, [])];
    assert rows[..2][..1] == [rows[0]];
    assert rows[..2] == [rows[0], rows[1]];
    assert rows[..1] == [rows[0]];
    assert "Comida" != "Transporte";
    assert rows[..1][..0] == [];
    assert CategoryGroups(rows[..1]) == [("Comida", 100.0)];
    assert CategoryGroups(rows[..2]) == AddToGroup([("Comida", 100.0)], "Comida", 50.0) == [("Comida", 150.0)];
    assert AddToGroup([("Comida", 150.0)], "Transporte", 25.0) == [("Comida", 150.0)] + AddToGroup([], "Transporte", 25.0);
    var g := [("Comida", 150.0), ("Transporte", 25.0)];
    assert CategoryGroups(rows) == g;
    assert Total(rows[..1]) == 100.0;
    assert Total(rows[..2]) == 150.0;
    assert Total(rows) == 175.0;
    assert SortByTotal(g[1..]) == [("Transporte", 25.0)];
    assert SortByTotal(g) == g;
    assert Shares(g[1..], 175.0) == [Share("Transporte", 25.0, Some(100.0 / 7.0))];
  }

  /**
   * Costs 10, 999 and 5 where the 999 row has no description: that row is the largest
   * expense and is reported as 'Desconocido'.
   */
  lemma {:induction false} LargestExpenseExample(d: Date)
    ensures var rows := [
              Expense(Some(d), 10.0, Some("Comida"), Some("Pan"), None, []),
              Expense(Some(d), 999.0, Some("Hogar"), None, None, []),
              Expense(Some(d), 5.0, Some("Comida"), Some("Leche"), None, [])];
            && LargestExpense(rows) == 1
            && Summarise(rows).Ok?
            && Summarise(rows).value.largestCost == 999.0
            && Summarise(rows).value.largestDescription == "Desconocido"
  {
    var rows := [
      Expense(Some(d), 10.0, Some("Comida"), Some("Pan"), None, []),
      Expense(Some(d), 999.0, Some("Hogar"), None, None, []),
      Expense(Some(d), 5.0, Some("Comida"), Some("Leche"), None, [])];
    var xs := Costs(rows);
    assert xs == [10.0, 999.0, 5.0];
    assert xs[..2][..1] == [10.0];
    assert xs[..2] == [10.0, 999.0];
    assert ArgMax(xs[..2]) == 1;
    assert LargestExpense(rows) == 1;
    DailyTotalsSpec(rows);
    assert d in Dates(rows);
  }
}

=== FILE: text.dfy ===
/** Character-level helpers shared by the date and cost parsers. */
module Text {

  /** Number of occurrences of `c` in `s`. */
  function Count(s: string, c: char): nat
  {
    if s == [] then 0 else (if s[0] == c then 1 else 0) + Count(s[1..], c)
  }

  lemma {:induction false} CountAppend(a: string, b: string, c: char)
    ensures Count(a + b, c) == Count(a, c) + Count(b, c)
  {
    if a == [] {
      assert a + b == b;
    } else {
      assert (a + b)[1..] == a[1..] + b;
      CountAppend(a[1..], b, c);
    }
  }

  lemma {:induction false} CountZero(s: string, c: char)
    ensures Count(s, c) == 0 <==> c !in s
  {
    if s != [] {
      CountZero(s[1..], c);
      assert s == [s[0]] + s[1..];
    }
  }

  /** Python's `str.isspace`: the characters `str.strip()` removes. */
  predicate IsSpace(c: char)
  {
    c == ' ' || ('\t' <= c <= '\r') || ('\U{1C}' <= c <= '\U{1F}')
    || c == '\U{85}' || c == '\U{A0}' || c == '\U{1680}'
    || ('\U{2000}' <= c <= '\U{200A}') || c == '\U{2028}' || c == '\U{2029}'
    || c == '\U{202F}' || c == '\U{205F}' || c == '\U{3000}'
  }

  /** Every character of `t` is whitespace. */
  predicate AllSpace(t: string)
  {
    t == [] || (IsSpace(t[0]) && AllSpace(t[1..]))
  }

  lemma {:induction false} AllSpaceAppend(a: string, b: string)
    requires AllSpace(a) && AllSpace(b)
    ensures AllSpace(a + b)
  {
    if a != [] {
      assert (a + b)[0] == a[0] && (a + b)[1..] == a[1..] + b;
      AllSpaceAppend(a[1..], b);
    } else {
      assert a + b == b;
    }
  }

  /** `str.lstrip()`: what is removed is whitespace, and what is left does not start with it. */
  function TrimLeft(s: string): (r: string)
    ensures |r| <= |s| && r == s[|s| - |r|..]
    ensures AllSpace(s[..|s| - |r|])
    ensures r == [] || !IsSpace(r[0])
  {
    if s != [] && IsSpace(s[0]) then
      var r := TrimLeft(s[1..]);
      assert s[..|s| - |r|][1..] == s[1..][..|s| - 1 - |r|];
      r
    else
      s
  }

  /** `str.rstrip()`: what is removed is whitespace, and what is left does not end with it. */
  function TrimRight(s: string): (r: string)
    ensures |r| <= |s| && r == s[..|r|]
    ensures AllSpace(s[|r|..])
    ensures r == [] || !IsSpace(r[|r| - 1])
  {
    if s != [] && IsSpace(s[|s| - 1]) then
      var r := TrimRight(s[..|s| - 1]);
      AllSpaceAppend(s[..|s| - 1][|r|..], [s[|s| - 1]]);
      assert s[|r|..] == s[..|s| - 1][|r|..] + [s[|s| - 1]];
      r
    else
      s
  }

  /** `s` is `r` with whitespace before it (the first `i` characters) and after it. */
  predicate SpaceAround(s: string, r: string, i: nat)
  {
    i + |r| <= |s| && s == s[..i] + r + s[i + |r|..] && AllSpace(s[..i]) && AllSpace(s[i + |r|..])
  }

  /** `str.strip()`: the result neither starts nor ends with whitespace. */
  function Trim(s: string): (r: string)
    ensures r == [] || (!IsSpace(r[0]) && !IsSpace(r[|r| - 1]))
  {
    TrimRight(TrimLeft(s))
  }

  /** `r` is a prefix of the suffix of `s` from `i`: `s` splits around it. */
  lemma {:induction false} SliceOfSuffix(s: string, i: nat, r: string)
    requires i <= |s| && |r| <= |s| - i && r == s[i..][..|r|]
    ensures s == s[..i] + r + s[i + |r|..]
    ensures s[i + |r|..] == s[i..][|r|..]
  {
    assert s[i..] == r + s[i + |r|..];
  }

  /** The input is the stripped text with only whitespace around it; the leading part is what `lstrip` removes. */
  lemma {:induction false} TrimSpec(s: string)
    ensures SpaceAround(s, Trim(s), |s| - |TrimLeft(s)|)
  {
    var l := TrimLeft(s);
    var r := TrimRight(l);
    SliceOfSuffix(s, |s| - |l|, r);
  }

  /** A string of whitespace holds no copy of a character that is not whitespace. */
  lemma {:induction false} CountSpaces(t: string, x: char)
    requires AllSpace(t) && !IsSpace(x)
    ensures Count(t, x) == 0
  {
    if t != [] {
      CountSpaces(t[1..], x);
    }
  }

  lemma {:induction false} TrimOfTrimmed(s: string)
    requires s == [] || (!IsSpace(s[0]) && !IsSpace(s[|s| - 1]))
    ensures Trim(s) == s
  {
  }

  predicate IsDigit(c: char) { '0' <= c <= '9' }

  predicate AllDigits(s: string)
  {
    forall i :: 0 <= i < |s| ==> IsDigit(s[i])
  }

  function DigitValue(c: char): nat
    requires IsDigit(c)
  {
    (c as int - '0' as int) as nat
  }

  function DigitChar(d: nat): (c: char)
    requires d < 10
    ensures IsDigit(c) && DigitValue(c) == d
  {
    ('0' as int + d) as char
  }

  /** The value of a string of decimal digits, most significant first ("" is 0). */
  function DigitsValue(s: string): nat
    requires AllDigits(s)
  {
    if s == [] then 0 else DigitsValue(s[..|s| - 1]) * 10 + DigitValue(s[|s| - 1])
  }

  function Pow10(n: nat): (p: nat)
    ensures p >= 1
  {
    if n == 0 then 1 else 10 * Pow10(n - 1)
  }

  /** `n` written with exactly `width` digits, zero-padded on the left. */
  function Fixed(n: nat, width: nat): (r: string)
    requires n < Pow10(width)
    ensures |r| == width && AllDigits(r) && DigitsValue(r) == n
  {
    if width == 0 then ""
    else
      var q := n / 10;
      assert q < Pow10(width - 1);
      var r := Fixed(q, width - 1) + [DigitChar(n % 10)];
      assert r[..|r| - 1] == Fixed(q, width - 1);
      r
  }

  /** `n` in decimal without leading zeros. */
  function NatToDigits(n: nat): (r: string)
    ensures |r| >= 1 && AllDigits(r) && DigitsValue(r) == n
  {
    if n < 10 then [DigitChar(n)]
    else
      var r := NatToDigits(n / 10) + [DigitChar(n % 10)];
      assert r[..|r| - 1] == NatToDigits(n / 10);
      r
  }

  /** The first position of `c` in `s`, or `|s|` when it does not occur. */
  function Find(s: string, c: char): (k: nat)
    ensures k <= |s|
    ensures k < |s| ==> s[k] == c
    ensures forall i :: 0 <= i < k ==> s[i] != c
  {
    if s == [] then 0 else if s[0] == c then 0 else 1 + Find(s[1..], c)
  }
}

=== FILE: wrappers.dfy ===
/** Option and Result, used for pandas' nulls and for the summary's failure path. */
module Wrappers {

  /** `None` stands for a missing value (NaN / NaT in the script). */
  datatype Option<+T> = None | Some(value: T)

  datatype Result<+T, +E> = Ok(value: T) | Err(error: E)
}
